=== FILE: README.md ===
# rush: a verified model of the shell's line handling

`rush` is a small Unix shell written in Rust. Its one source file,
`src/main.rs`, reads a line, records it in a history, splits it into
words, and picks a builtin (`exit`, `pwd`, `cd`, `history`, `jobs`, `kill`)
or forks a child for an external program. The child scans its words for
`<` and `>` redirections before calling `execvp`. The parent either waits
for the child or, for a line ending in `&`, records it as a job.

This project models the deterministic part of that as pure Dafny functions
and methods over strings and sequences. The current directory, the set of
still-running process ids and the result of `fork` are parameters.

- `wrappers.dfy`: `Option` and `Result`.
- `text.dfy`: splitting on a separator as Rust's `str::split(char)` does, `delete_empty`, an independent tokenizer `Words` (the maximal runs of non-space characters), the space-terminated job rendering, and decimal and padded number output.
- `state.dfy`: the `History` record, holding the raw lines and the `(pid, words)` jobs.
- `parser.dfy`: `parse_cmd`.
- `redirect.dfy`: `get_absolute_path` and the child's redirection scan. The scan is specified position by position through a `Role` for each word: a plain argument, a `<`/`>` marker (bare or with the file name attached), or the file name a bare marker claims.
- `dispatch.dfy`: `execute_cmd` as a classifier into an `Action`, and the `parse::<i32>` check that `safe_kill` applies to its operand.
- `listing.dfy`: `print_job`, `print_jobs` and `print_history` as returned strings.
- `shell.dfy`: one turn of the read loop seen from the parent, a run of turns, and the lines that end the run.

Behaviour pinned down, as the code has it:
- The last character of a line is dropped whatever it is.
- Only the character right before it is checked for `&`. So `sleep 5&` runs in the background, while `sleep 5 & ` runs in the foreground with a word `&`.
- Words are separated by single spaces only. Tabs are ordinary characters, and spaces between `&` and the newline are not skipped.
- There are no pipelines and no quoting.
- `cd` with no operand goes to `/home`.
- `cd` to a name holding a NUL character makes the shell panic: `CString::new` rejects the path before `chdir` is called. This too ends the read loop.
- `kill` reads its operand with `parse::<i32>().unwrap()`. An operand that is not a 32-bit number makes the shell panic, which ends the read loop like `exit`. `kill 0` sends `SIGTERM` to the shell's own process group, the shell included, so it ends the loop too.
- `history` lists every line except the newest, numbered from 1 in a five-column field.
- `jobs` never removes an entry. It skips the jobs whose process has exited.
- Every word of a job line is followed by a space, the last one too.
- A bare marker takes the next word as its file name, whatever that word looks like.
- A bare marker as the last word makes the child index past the end of its words (`MissingFileName`).
- A line whose words are all redirections leaves no program name (`NoProgram`).
- The child panics at the first file path holding NUL, before creating that file (`NulInFileName`), and at an argument holding NUL once the scan is done (`NulInArgument`).
- The child means to create every named file with `fopen(…, "a")`, input files included, and then open it with `O_RDONLY` or `O_WRONLY`. Neither truncates.

## Model

| member | source | states |
|---|---|---|
| Text.Split | src/main.rs:59-61 | splitting on a separator yields one more field than there are separators, and no field contains the separator |
| Text.JoinSplit | src/main.rs:59-61 | rejoining the split fields with the separator gives back the original text exactly |
| Text.SplitJoin | src/main.rs:59-61 | separator-free fields are recovered exactly by splitting their join |
| Text.DeleteEmpty | src/main.rs:20-28 | the result holds exactly the non-empty fields of the input, none of them empty, and is never longer |
| Text.DeleteEmptyAppend | src/main.rs:20-28 | the filter distributes over concatenation, so it keeps the relative order of the fields |
| Text.DeleteEmptyIdempotent | src/main.rs:20-28 | filtering twice equals filtering once |
| Text.Words | src/main.rs:59-61 | every word of the reference tokenizer is non-empty and space-free |
| Text.FilteredSplitIsWords | src/main.rs:59-61 | splitting on single spaces and deleting empty fields gives exactly the maximal runs of non-space characters, in order |
| Text.WordsOfSpaced | src/main.rs:94-100 | a word list rendered with a space after each word tokenizes back to the same list |
| Text.Decimal | src/main.rs:113 | a line number renders as a non-empty digit string with no leading zero |
| Text.DecimalRoundTrip | src/main.rs:113 | reading back a rendered line number gives the number |
| Text.PadLeft | src/main.rs:113 | `{:5}` right-aligns: the text ends the field, only spaces precede it, and the width is at least five |
| Parser.ParseLine | src/main.rs:39-62 | an empty line is end of input. Otherwise the command is backgrounded iff the line has two or more characters and the next-to-last is `&`. Its words are exactly the non-space runs of the line minus the terminator (and that `&`). A one-character line gives no words and no background |
| Parser.ParseCmd | src/main.rs:30-38 | the raw line, terminator included, is appended to the history, so the history grows by exactly one even at end of input. The job list is untouched |
| Parser.AttachedAmpersandBackgrounds | src/main.rs:46-57 | `sleep 5&` parses to the words `sleep 5` in the background |
| Parser.SpacedAmpersandIsAWord | src/main.rs:46-61 | `sleep 5 & ` parses to `sleep 5 &` in the foreground |
| Parser.TabIsNotASeparator | src/main.rs:59-61 | a tab stays inside a word |
| Redirect.AbsolutePath | src/main.rs:253-261 | the name always ends the result. The result is the name itself iff the name starts with `/`; otherwise `cwd` and `/` precede it. An absolute `cwd` makes the result absolute |
| Redirect.AbsolutePathIdempotent | src/main.rs:253-261 | under an absolute current directory, resolving a resolved path changes nothing |
| Redirect.ArgvOf | src/main.rs:154 | the arguments passed on to the program never start with `<` or `>` and are no more than the words scanned |
| Redirect.Absorb | src/main.rs:136-156 | one iteration of the scan for a word with a known role: a word adds at most one entry, either one argument or one created file |
| Redirect.ScanUpTo | src/main.rs:132-158 | the scan's state after the first `n` words, against which the loop is checked. The arguments and created files together never outnumber the words |
| Redirect.ScanStep | src/main.rs:134-157 | one pass of the loop body: an argument or attached marker takes one scan step; a bare marker either runs off the end (the words end in a bare marker) or takes two steps, the second for the file it claims; the next word again has its own role |
| Redirect.TakeFile | src/main.rs:136-156 | the marker arm: a bare marker as the last word is `MissingFileName`; a path holding NUL is `NulInFileName` and stays in the final created list; otherwise the scan moves one word on for an attached marker and two for a bare one, with the file recorded, no NUL among the created paths, and the next word again having its own role |
| Redirect.ScanWords | src/main.rs:130-158 | the loop fails with `NulInFileName` iff some path the words name holds NUL, and otherwise with `MissingFileName` iff the last word is a bare marker; when it succeeds it returns the position-by-position scan |
| Redirect.ResolveChild | src/main.rs:130-170 | the child fails with `NulInFileName` iff a named path holds NUL; otherwise with `MissingFileName` iff the last word is a bare marker; otherwise with `NoProgram` iff no plain argument is left; otherwise with `NulInArgument` iff an argument holds NUL. When it succeeds it returns the position-by-position scan, with a non-empty argument vector and no NUL anywhere |
| Redirect.AbsolutePathNul | src/main.rs:142-144 | a resolved path holds NUL exactly when the name does, under a directory without NUL |
| Redirect.CreatedOf | src/main.rs:142-146 | the paths the words name, made absolute, in word order; never more than the words |
| Redirect.ScanCreated | src/main.rs:132-158 | the files the scan creates are exactly the paths the words name, made absolute, each once, in word order |
| Redirect.CreatedGrows | src/main.rs:142-146 | a file once created stays in the list as the scan goes on |
| Redirect.ScanArgv | src/main.rs:132-158 | the argument vector is exactly the words that are neither markers nor claimed by a bare marker, in order |
| Redirect.LastRedirectionWins | src/main.rs:136-151 | the file of the last word naming one for a stream is the one in effect, made absolute |
| Redirect.UnredirectedStreamInherited | src/main.rs:128-162 | a stream no word redirects is left unset, so the child inherits it |
| Redirect.NulPathFails | src/main.rs:142-144 | a created path holding NUL means the final created list holds NUL |
| Redirect.RedirectedFilesCreated | src/main.rs:142-149 | every file a stream is redirected to was created by the scan beforehand |
| Redirect.PlainWordsPassThrough | src/main.rs:132-158 | without markers the words pass through unchanged, no stream is redirected and no file is created |
| Redirect.SortExample | src/main.rs:132-158 | `sort <in > /tmp/o` in `/w` runs `sort` reading `/w/in` and writing `/tmp/o` |
| Dispatch.ActionOf | src/main.rs:218-246 | no words does nothing. A first word outside the six builtins is external. A builtin action answers to exactly its first word. `cd` goes to the operand or `/home`. `kill` alone is the missing-pid error, otherwise its operand is the pid |
| Dispatch.ActionReadsTwoWords | src/main.rs:225-246 | two word lists that agree on the first word and on the second (if present) get the same action |
| Dispatch.ParsesAsPid | src/main.rs:72 | the words `parse::<i32>` accepts: an optional sign, then at least one digit, with a value in the signed 32-bit range |
| Dispatch.PidValue | src/main.rs:72 | the process id an accepted word denotes, always within the signed 32-bit range |
| Dispatch.RenderedPidsParse | src/main.rs:69-72 | every number in the 32-bit range, with or without a leading minus, is accepted by `parse::<i32>` |
| Dispatch.RenderedPidsReadBack | src/main.rs:72 | such a rendered number, once accepted, gives back exactly that number, negated after the minus |
| Dispatch.NonNumbersDoNotParse | src/main.rs:69-72 | letters, an empty word, a lone sign and 2147483648 are rejected by `parse::<i32>`, so `unwrap` panics |
| Listing.JobLine | src/main.rs:94-100 | a job line ends in a newline, and for a non-empty job the character before it is a space |
| Listing.JobLineReparses | src/main.rs:94-100 | a job's printed line, read back by the shell, is the same words in the foreground |
| Listing.RunningJobs | src/main.rs:103-107 | the jobs whose process is still running, in table order, never more than the table holds |
| Listing.RunningJobsAppend | src/main.rs:103-107 | the running jobs of two tables one after the other are those of the first followed by those of the second, so the filter keeps table order |
| Listing.RunningJobsMembers | src/main.rs:101-109 | a job is listed iff it is in the table and its process is still running |
| Listing.ListedIsRunningLines | src/main.rs:101-109 | visiting jobs in order and printing the running ones prints the lines of the running jobs, in table order |
| Listing.PrintJobs | src/main.rs:101-109 | the `jobs` output is the concatenated lines of the running jobs, in the order they were started |
| Listing.HistoryLine | src/main.rs:113 | a `{:5}  {}` entry ends with the raw line, has at least seven columns before it, and exactly seven while the number has at most five digits |
| Listing.NumberFieldReadsBack | src/main.rs:113 | the five-column number field is exactly five characters, and trimmed of its padding it reads back as the number |
| Listing.HistoryLineReadsBack | src/main.rs:113 | a history entry is seven columns of number and spacing followed by the raw line. The number reads back from the first five columns |
| Listing.PrintHistory | src/main.rs:111-115 | the `history` output lists lines 1 to n-1 of an n-line history, each with its number |
| Listing.HistoryGrowsByPrevious | src/main.rs:111-115 | after one more line is read, the listing gains exactly the previously newest line, numbered after the rest |
| Shell.RecordJob | src/main.rs:185-194 | the jobs change iff the command is backgrounded and the fork succeeded, and then gain exactly `(pid, words)`. The history is untouched |
| Shell.Step | src/main.rs:213-214 | one turn appends the raw line to the history and stops exactly at end of input. The jobs grow by one entry exactly for a forked background external command, and the jobs stay well formed |
| Shell.Run | src/main.rs:198-216 | each line read adds exactly one history entry and at most one job; a non-empty input adds at least one entry, and no more than there are lines |
| Shell.LinesRead | src/main.rs:198-216 | the read loop consumes at least one line when any is offered, and never more than there are |
| Shell.EndsShell | src/main.rs:218-246 | the actions that end the process as the words alone decide: `exit`, `kill` with an operand `parse::<i32>` rejects or that denotes 0, and `cd` to a name holding NUL |
| Shell.Continues | src/main.rs:201-215 | the loop goes on after a turn unless the turn met end of input or ran an action that ends the process |
| Shell.Stops | src/main.rs:201-215 | the lines that end the loop: end of input, or a line whose command ends the process |
| Shell.ContinuesUnlessStops | src/main.rs:218-246 | a turn lets the loop go on exactly when its line is not end of input, `exit`, `kill` with an operand `parse::<i32>` rejects or that denotes 0, or `cd` to a name holding NUL, whatever the history and fork outcome |
| Shell.LinesReadStopsAtFirstStop | src/main.rs:198-216 | the loop reads up to and including the first stopping line, or every line when none stops it |
| Shell.KillWithoutNumberEndsRun | src/main.rs:69-72 | after `kill abc` the next line is never read |
| Shell.KillZeroEndsRun | src/main.rs:69-76 | after `kill 0` the next line is never read |
| Shell.CdWithNulEndsRun | src/main.rs:78-85 | after `cd` to a name holding NUL the next line is never read |
| Shell.RunRecordsLinesRead | src/main.rs:198-216 | over any run the history is the old one followed by exactly the lines the loop read, unmodified and in order |
| Shell.RunOnlyAddsJobs | src/main.rs:186-193 | over any run the old jobs stay in place at the front of the table, and well-formed jobs stay well formed |
| Shell.JobsAreExternal | src/main.rs:186-193 | every job recorded from a fresh start is an external command when classified again |
| Shell.ExternalWordsScannable | src/main.rs:134-135 | the words of an external command are non-empty and there is at least one, as the child's scan needs |
| Shell.CdTargetResolvable | src/main.rs:228-237 | the `cd` target is never empty, and with no operand it resolves to `/home` whatever the current directory |

## Left out

- Process and descriptor plumbing is not modelled: `fork`, `dup2`, `open`, `close`, `execvp`, `wait`, `waitpid`. The fork result is a parameter, and the running state of a pid is a set of pids.
- OS calls are left out: file creation (`create_file`), `chdir`, `kill(SIGTERM)` and `env::current_dir`. The current directory is a parameter. The model returns the list of files the scan creates but not their contents.
- The read/prompt loop, `ReadLineError` and stdout flushing are I/O. Output is returned as strings; `pwd`'s one line is not modelled.
- `safe_kill` sends `SIGTERM` to the parsed pid. The model only decides whether the operand parses: it ends the run when it does not, and otherwise keeps the word unparsed.
- The source turns every path and argument into a C string with `CString::new(…).unwrap().as_ptr()` and drops the `CString` at once. So `chdir` (src/main.rs:84-85), `create_file` and `open` (src/main.rs:142-149), and the `execvp` argument vector (src/main.rs:166-170) all receive freed buffers, which is undefined behaviour. The model gives the paths and arguments the code means to pass.
- Redirect.RedirectedFilesCreated: states which files the scan means to create. The source hands `create_file` a pointer into a freed `CString`, so what it actually creates is undefined.
- Redirect.LastRedirectionWins: states which file the scan means to open for a stream. The source hands `open` a pointer into a freed `CString`, so what it actually opens is undefined.
- The message texts `ChDirError`, `KillError` and `ExecError` are not modelled.
- After a failed `execvp` the child prints `ExecError` and returns into the read loop as a second shell. That is process behaviour and is not modelled.
- The shell has no pipelines, quoting or tab handling, so the model has none either.
- Redirect.ResolveChild: on `NulInFileName` and `MissingFileName`, the files created before the failing word are not reported. The source creates them and then panics.
- Shell.EndsShell: a `kill` whose operand names the shell's own process id, or its process group as a negative number, also ends the shell. Which numbers those are is process state the model does not have, so only `kill 0` is counted. The model also assumes `SIGTERM` keeps its default action of ending the process.
- Shell.Continues: inherits the `kill` gap of Shell.EndsShell; after a `kill` of the shell's own pid or group by number it says the loop goes on.
- Shell.Stops: inherits the `kill` gap of Shell.EndsShell; a line killing the shell's own pid or group by number is not counted as stopping.
- Shell.ContinuesUnlessStops: relates Continues and Stops, and so inherits the `kill` gap of Shell.EndsShell.
- Shell.LinesReadStopsAtFirstStop: inherits the `kill` gap of Shell.Stops; after a line killing the shell's own pid or group by number the model reads on.
- `env::current_dir().unwrap()` panics when the current directory no longer exists. The directory is a parameter of the model, so `pwd`, a relative `cd` and relative redirections are modelled as if it always exists.
- Listing.PrintHistory: requires a non-empty history. The source computes `len() - 1` on an unsigned length, and its read loop records a line before any command runs.
- Listing.NumberFieldReadsBack: stated only for numbers below 100000. A wider number fills more than five columns and leaves no padding to trim.
- Listing.HistoryLineReadsBack: stated only for numbers below 100000. Wider numbers overflow the five-column field and would run into the padding.

=== FILE: dispatch.dfy ===
/** The builtin dispatch of `execute_cmd`, as a classifier of a parsed word
    list into the action the shell takes. */
module Dispatch {
  import opened Text

  /** What the shell does with one command line. `Cd` carries the directory
      operand before it is made absolute; `Kill` carries the process-id word
      unparsed. */
  datatype Action =
    | NoOp
    | Exit
    | Pwd
    | Cd(dest: string)
    | ShowHistory
    | ShowJobs
    | Kill(pid: string)
    | KillMissingPid
    | External

  /** The words that name builtins; matching is exact and case-sensitive. */
  const Builtins: set<string> := {"exit", "pwd", "cd", "history", "jobs", "kill"}

  /** The directory `cd` goes to when given no operand. */
  const HomeDir := "/home"

  /** The builtin word an action answers to, when it is a builtin. */
  function BuiltinName(a: Action): string
    requires !a.NoOp? && !a.External?
  {
    match a
    case Exit => "exit"
    case Pwd => "pwd"
    case Cd(_) => "cd"
    case ShowHistory => "history"
    case ShowJobs => "jobs"
    case Kill(_) => "kill"
    case KillMissingPid => "kill"
  }

  /** `execute_cmd`'s choice: no words does nothing; otherwise the first word
      is matched against the builtins and anything else runs externally.
      Only `cd` and `kill` look at a second word; further words are ignored. */
  function ActionOf(args: seq<string>): (a: Action)
    ensures a.NoOp? <==> |args| == 0
    ensures a.External? <==> |args| > 0 && args[0] !in Builtins
    ensures !a.NoOp? && !a.External? ==> BuiltinName(a) == args[0]
    ensures a.Cd? ==> a.dest == (if |args| >= 2 then args[1] else HomeDir)
    ensures a.Kill? ==> |args| >= 2 && a.pid == args[1]
    ensures a.KillMissingPid? <==> args == ["kill"]
  {
    if |args| == 0 then NoOp
    else
      match args[0]
      case "exit" => Exit
      case "pwd" => Pwd
      case "cd" => Cd(if |args| == 1 then HomeDir else args[1])
      case "history" => ShowHistory
      case "jobs" => ShowJobs
      case "kill" => if |args| == 1 then KillMissingPid else Kill(args[1])
      case _ => External
  }

  /** The action depends on the first word and, for `cd` and `kill`, on
      whether a second one exists and what it is; nothing else matters. */
  lemma ActionReadsTwoWords(a: seq<string>, b: seq<string>)
    requires |a| > 0 && |b| > 0 && a[0] == b[0]
    requires |a| >= 2 <==> |b| >= 2
    requires |a| >= 2 ==> a[1] == b[1]
    ensures ActionOf(a) == ActionOf(b)
  {
  }

  /** Whether `safe_kill` can read the word as a process id, as Rust's
      `parse::<i32>` does: one optional `+` or `-`, then at least one decimal
      digit, and the value must fit in 32 signed bits. Any other word makes
      `unwrap` panic, which ends the shell. */
  predicate ParsesAsPid(w: string)
  {
    var signed := |w| > 0 && (w[0] == '+' || w[0] == '-');
    var digits := if signed then w[1..] else w;
    && |digits| > 0
    && IsDigits(digits)
    && DecimalValue(digits) <= (if signed && w[0] == '-' then 0x8000_0000 else 0x7fff_ffff)
  }

  /** The process id `parse::<i32>` reads from a word it accepts: the
      digits' value, negated after a `-`. */
  function PidValue(w: string): (v: int)
    requires ParsesAsPid(w)
    ensures -0x8000_0000 <= v <= 0x7fff_ffff
  {
    var signed := w[0] == '+' || w[0] == '-';
    var value: int := DecimalValue(if signed then w[1..] else w);
    if w[0] == '-' then -value else value
  }

  /** Every process id the shell can be given back reads as one: the
      rendering of any number in the 32-bit range, with or without a minus
      sign in front. */
  lemma {:induction false} RenderedPidsParse(n: nat)
    ensures n <= 0x7fff_ffff ==> ParsesAsPid(Decimal(n))
    ensures n <= 0x8000_0000 ==> ParsesAsPid("-" + Decimal(n))
  {
    DecimalRoundTrip(n);
    var d := Decimal(n);
    assert ("-" + d)[1..] == d;
  }

  /** A rendered process id reads back as the number it renders. */
  lemma {:induction false} RenderedPidsReadBack(n: nat)
    ensures n <= 0x7fff_ffff ==> ParsesAsPid(Decimal(n)) && PidValue(Decimal(n)) == n
    ensures n <= 0x8000_0000 ==> ParsesAsPid("-" + Decimal(n)) && PidValue("-" + Decimal(n)) == -(n as int)
  {
    RenderedPidsParse(n);
    DecimalRoundTrip(n);
    var d := Decimal(n);
    assert ("-" + d)[1..] == d;
  }

  /** Appending a digit multiplies the value by ten and adds the digit. */
  lemma DigitAppended(s: string, c: char)
    requires IsDigits(s) && '0' <= c <= '9'
    ensures IsDigits(s + [c])
    ensures DecimalValue(s + [c]) == DecimalValue(s) * 10 + (c as int - '0' as int)
  {
    assert (s + [c])[..|s|] == s;
  }

  /** The digits of 2^31 denote 2^31, built up one digit at a time. */
  lemma TwoToThe31Digits()
    ensures IsDigits("2147483648") && DecimalValue("2147483648") == 0x8000_0000
  {
    var s: string, value := "", 0;
    DigitAppended(s, '2'); s, value := s + ['2'], value * 10 + 2;
    DigitAppended(s, '1'); s, value := s + ['1'], value * 10 + 1;
    DigitAppended(s, '4'); s, value := s + ['4'], value * 10 + 4;
    DigitAppended(s, '7'); s, value := s + ['7'], value * 10 + 7;
    DigitAppended(s, '4'); s, value := s + ['4'], value * 10 + 4;
    DigitAppended(s, '8'); s, value := s + ['8'], value * 10 + 8;
    DigitAppended(s, '3'); s, value := s + ['3'], value * 10 + 3;
    DigitAppended(s, '6'); s, value := s + ['6'], value * 10 + 6;
    DigitAppended(s, '4'); s, value := s + ['4'], value * 10 + 4;
    DigitAppended(s, '8'); s, value := s + ['8'], value * 10 + 8;
    assert s == "2147483648" && value == 0x8000_0000;
  }

  /** Words that are not a 32-bit number: letters, a lone sign, nothing, and
      one past the largest value. */
  lemma NonNumbersDoNotParse()
    ensures !ParsesAsPid("abc") && !ParsesAsPid("") && !ParsesAsPid("-")
    ensures !ParsesAsPid("2147483648")
  {
    assert !IsDigits("abc") by { assert "abc"[0] == 'a'; }
    TwoToThe31Digits();
  }
}

=== FILE: listing.dfy ===
/** What the `jobs` and `history` builtins print, as returned strings:
    `print_job`, `print_jobs` and `print_history` of src/main.rs. */
module Listing {
  import opened Text
  import opened State
  import opened Parser

  /** `print_job`: every word followed by a space (the last one too), then a
      newline. */
  function JobLine(args: seq<string>): (r: string)
    ensures |r| >= 1 && r[|r| - 1] == '\n'
    ensures |args| > 0 ==> |r| >= 2 && r[|r| - 2] == ' '
  {
    SpacedEndsInSpace(args);
    Spaced(args) + "\n"
  }

  lemma {:induction false} SpacedEndsInSpace(words: seq<string>)
    ensures |words| > 0 ==> |Spaced(words)| >= 1 && Spaced(words)[|Spaced(words)| - 1] == ' '
    decreases |words|
  {
    if |words| > 1 {
      SpacedEndsInSpace(words[1..]);
    }
  }

  /** A job's printed line, fed back to the shell, is the same command in
      the foreground: the trailing space keeps a final `&` from counting. */
  lemma JobLineReparses(args: seq<string>)
    requires forall i :: 0 <= i < |args| ==> IsWord(args[i])
    ensures ParseLine(JobLine(args)) == Line(Command(args, false))
  {
    var line := JobLine(args);
    assert line[..|line| - 1] == Spaced(args);
    if |args| > 0 {
      assert line[|line| - 2] == ' ';
    }
    WordsOfSpaced(args);
  }

  /** The jobs whose process is still running, in the order they started. */
  function RunningJobs(jobs: seq<Job>, running: set<int>): (r: seq<Job>)
    ensures |r| <= |jobs|
  {
    if |jobs| == 0 then []
    else
      var last := jobs[|jobs| - 1];
      RunningJobs(jobs[..|jobs| - 1], running) + (if last.pid in running then [last] else [])
  }

  /** Exactly the running jobs are kept: one whose process has exited is
      not listed, one still running is. */
  lemma {:induction false} RunningJobsMembers(jobs: seq<Job>, running: set<int>, j: Job)
    ensures j in RunningJobs(jobs, running) <==> j in jobs && j.pid in running
  {
    if |jobs| > 0 {
      RunningJobsMembers(jobs[..|jobs| - 1], running, j);
      assert jobs == jobs[..|jobs| - 1] + [jobs[|jobs| - 1]];
    }
  }

  /** The filter keeps the table's order: the running jobs of two tables
      one after the other are those of the first, then those of the
      second. */
  lemma {:induction false} RunningJobsAppend(a: seq<Job>, b: seq<Job>, running: set<int>)
    ensures RunningJobs(a + b, running) == RunningJobs(a, running) + RunningJobs(b, running)
    decreases |b|
  {
    if |b| == 0 {
      assert a + b == a;
    } else {
      var front := b[..|b| - 1];
      RunningJobsAppend(a, front, running);
      assert (a + b)[..|a + b| - 1] == a + front;
      assert (a + b)[|a + b| - 1] == b[|b| - 1];
    }
  }

  /** The printed lines of a list of jobs, one after another. */
  function JobLines(jobs: seq<Job>): string
  {
    if |jobs| == 0 then "" else JobLines(jobs[..|jobs| - 1]) + JobLine(jobs[|jobs| - 1].args)
  }

  /** What `print_jobs` has printed after visiting the first `n` jobs. */
  function ListedUpTo(jobs: seq<Job>, n: nat, running: set<int>): string
    requires n <= |jobs|
  {
    if n == 0 then ""
    else ListedUpTo(jobs, n - 1, running) + (if jobs[n - 1].pid in running then JobLine(jobs[n - 1].args) else "")
  }

  /** Visiting every job prints the lines of the running ones, in order. */
  lemma {:induction false} ListedIsRunningLines(jobs: seq<Job>, n: nat, running: set<int>)
    requires n <= |jobs|
    ensures ListedUpTo(jobs, n, running) == JobLines(RunningJobs(jobs[..n], running))
  {
    if n > 0 {
      ListedIsRunningLines(jobs, n - 1, running);
      var job := jobs[n - 1];
      var prefix := jobs[..n];
      assert prefix[..n - 1] == jobs[..n - 1] && prefix[n - 1] == job;
      var before := RunningJobs(jobs[..n - 1], running);
      assert RunningJobs(prefix, running) == before + (if job.pid in running then [job] else []);
      if job.pid in running {
        var after := before + [job];
        assert after[..|before|] == before && after[|before|] == job;
        assert JobLines(after) == JobLines(before) + JobLine(job.args);
      } else {
        assert before + [] == before;
      }
    }
  }

  /** `print_jobs`: walks the job list once and prints the jobs whose
      process has not exited. `running` stands for the pids on which a
      non-blocking `waitpid` reports no change; jobs are never removed. */
  method PrintJobs(jobs: seq<Job>, running: set<int>) returns (out: string)
    ensures out == JobLines(RunningJobs(jobs, running))
  {
    out := "";
    var i := 0;
    while i < |jobs|
      invariant 0 <= i <= |jobs|
      invariant out == ListedUpTo(jobs, i, running)
    {
      if jobs[i].pid in running {
        out := out + JobLine(jobs[i].args);
      }
      i := i + 1;
    }
    ListedIsRunningLines(jobs, |jobs|, running);
    assert jobs[..|jobs|] == jobs;
  }

  /** One history entry as `{:5}  {}` prints it: the number right-aligned
      in five columns, two spaces, then the raw line with its newline. */
  function HistoryLine(number: nat, line: string): (r: string)
    ensures |r| >= 7 + |line| && r[|r| - |line|..] == line
    ensures number < 100000 ==> |r| == 7 + |line|
  {
    var digits := Decimal(number);
    assert number < 100000 ==> |digits| <= 5 by {
      if number < 100000 { DecimalBelow(number); }
    }
    PadLeft(digits, 5) + "  " + line
  }

  /** The five-column number field reads back as the number it shows,
      while the number fits in five digits. */
  lemma NumberFieldReadsBack(number: nat)
    requires number < 100000
    ensures var f := PadLeft(Decimal(number), 5);
      && |f| == 5 && IsDigits(TrimLeft(f)) && DecimalValue(TrimLeft(f)) == number
  {
    var d := Decimal(number);
    DecimalBelow(number);
    var f := PadLeft(d, 5);
    assert |f| == 5 && f[5 - |d|..] == d;
    var pad := f[..5 - |d|];
    assert f == pad + f[5 - |d|..];
    assert forall i :: 0 <= i < |pad| ==> pad[i] == f[i];
    TrimLeftPadded(pad, d);
    DecimalRoundTrip(number);
  }

  /** A history entry can be read back: the number from its first five
      columns (while it fits) and the raw line from column eight on. */
  lemma HistoryLineReadsBack(number: nat, line: string)
    requires number < 100000
    ensures var r := HistoryLine(number, line);
      && |r| == 7 + |line| && r[7..] == line
      && IsDigits(TrimLeft(r[..5])) && DecimalValue(TrimLeft(r[..5])) == number
  {
    var padded := PadLeft(Decimal(number), 5);
    NumberFieldReadsBack(number);
    var head := padded + "  ";
    assert |head| == 7;
    var r := HistoryLine(number, line);
    assert r == head + line;
    assert r[..5] == head[..5] == padded;
    assert r[7..] == line;
    assert TrimLeft(r[..5]) == TrimLeft(padded);
  }

  /** The entries `history` prints: every line before the newest one,
      entry `k` being line `k` numbered `k + 1`. */
  function HistoryLines(hist: seq<string>): (r: seq<string>)
    requires |hist| >= 1
    ensures |r| == |hist| - 1
  {
    seq(|hist| - 1, k requires 0 <= k < |hist| - 1 => HistoryLine(k + 1, hist[k]))
  }

  /** Lines concatenated. */
  function Concat(lines: seq<string>): string
  {
    if |lines| == 0 then "" else Concat(lines[..|lines| - 1]) + lines[|lines| - 1]
  }

  /** `print_history`: prints entries 1 to n-1 of an n-line history, so the
      line being executed is never listed. The source computes n-1 on an
      unsigned length, so it needs a history that is not empty, which the
      read loop guarantees by recording each line before executing it. */
  method PrintHistory(hist: seq<string>) returns (out: string)
    requires |hist| >= 1
    ensures out == Concat(HistoryLines(hist))
  {
    out := "";
    var i := 0;
    while i < |hist| - 1
      invariant 0 <= i <= |hist| - 1
      invariant out == Concat(HistoryLines(hist)[..i])
    {
      var lines := HistoryLines(hist);
      assert lines[i] == HistoryLine(i + 1, hist[i]);
      assert lines[..i + 1][..i] == lines[..i] && lines[..i + 1][i] == lines[i];
      assert Concat(lines[..i + 1]) == Concat(lines[..i]) + lines[i];
      out := out + HistoryLine(i + 1, hist[i]);
      i := i + 1;
    }
    assert HistoryLines(hist)[..i] == HistoryLines(hist);
  }

  /** Reading one more line adds exactly the previous newest line to what
      `history` prints, numbered after all the others. */
  lemma HistoryGrowsByPrevious(hist: seq<string>, line: string)
    requires |hist| >= 1
    ensures HistoryLines(hist + [line]) == HistoryLines(hist) + [HistoryLine(|hist|, hist[|hist| - 1])]
  {
    var longer := hist + [line];
    assert longer[|hist| - 1] == hist[|hist| - 1];
    assert HistoryLines(longer)[..|hist| - 1] == HistoryLines(hist);
  }
}

=== FILE: parser.dfy ===
/** The line parser: `parse_cmd` and `delete_empty` of src/main.rs. */
module Parser {
  import opened Text
  import opened State

  /** A parsed line: its words, and `background` for the source's
      `if_continue` (the line asked not to be waited for). */
  datatype Command = Command(args: seq<string>, background: bool)

  /** Parsing either reaches end of input (the source exits with status 0)
      or yields a command, possibly with no words at all. */
  datatype LineResult = EndOfInput | Line(cmd: Command)

  /** The history record after reading a line, and what the line meant. */
  datatype Parsed = Parsed(history: History, result: LineResult)

  /** The text between the start of the line and the background marker, or
      the terminator when there is no marker. */
  function Body(line: string): string
    requires |line| >= 1
  {
    if |line| >= 2 && line[|line| - 2] == '&' then line[..|line| - 2] else line[..|line| - 1]
  }

  /** Parses one raw line as the source does: the last character (normally
      the newline) is dropped whatever it is; an empty line means end of
      input; a `&` just before it is removed and marks a background command;
      the rest is split on single spaces and the empty fields are discarded.
      Tabs are ordinary characters. */
  function ParseLine(line: string): (r: LineResult)
    ensures r.EndOfInput? <==> |line| == 0
    ensures r.Line? ==> (r.cmd.background <==> |line| >= 2 && line[|line| - 2] == '&')
    ensures r.Line? ==> r.cmd.args == Words(Body(line))
    ensures r.Line? ==> forall i :: 0 <= i < |r.cmd.args| ==> IsWord(r.cmd.args[i])
    ensures |line| == 1 ==> r == Line(Command([], false))
  {
    if |line| == 0 then EndOfInput
    else
      var rest := line[..|line| - 1];
      if |rest| == 0 then Line(Command([], false))
      else
        var last := rest[|rest| - 1];
        var background := last == '&';
        var body := if background then rest[..|rest| - 1] else rest[..|rest| - 1] + [last];
        assert body == Body(line);
        FilteredSplitIsWords(body);
        Line(Command(DeleteEmpty(Split(body, ' ')), background))
  }

  /** `parse_cmd`: the raw line, terminator included, is appended to the
      history before anything else happens (so also at end of input), and
      the job list is left alone. */
  function ParseCmd(line: string, h: History): (r: Parsed)
    ensures r.history.hist == h.hist + [line]
    ensures r.history.jobs == h.jobs
    ensures r.result == ParseLine(line)
  {
    Parsed(h.(hist := h.hist + [line]), ParseLine(line))
  }

  /** A `&` directly before the terminator backgrounds the command. */
  lemma AttachedAmpersandBackgrounds()
    ensures ParseLine("sleep 5&\n") == Line(Command(["sleep", "5"], true))
  {
    var body := "sleep 5";
    assert Body("sleep 5&\n") == body;
    assert WordEnd(body, 0) == 5 && body[..5] == "sleep" && body[5..] == " 5";
    assert " 5"[1..] == "5" && WordEnd("5", 0) == 1 && "5"[..1] == "5" && "5"[1..] == "";
    assert Words("5") == ["5"];
    assert Words(body) == ["sleep"] + Words(" 5");
  }

  /** A `&` followed by a space is an ordinary word and does not background. */
  lemma SpacedAmpersandIsAWord()
    ensures ParseLine("sleep 5 & \n") == Line(Command(["sleep", "5", "&"], false))
  {
    var body := "sleep 5 & ";
    assert Body("sleep 5 & \n") == body;
    var words := ["sleep", "5", "&"];
    assert Spaced(words[2..]) == "& ";
    assert Spaced(words[1..]) == "5 & ";
    assert Spaced(words) == body;
    assert IsWord(words[0]) && IsWord(words[1]) && IsWord(words[2]);
    WordsOfSpaced(words);
  }

  /** A tab does not separate words. */
  lemma TabIsNotASeparator()
    ensures ParseLine("ls\t-l\n") == Line(Command(["ls\t-l"], false))
  {
    var body := "ls\t-l";
    assert Body("ls\t-l\n") == body;
    assert WordEnd(body, 0) == 5 && body[..5] == body && body[5..] == "";
    assert Words(body) == [body];
  }
}

=== FILE: redirect.dfy ===
/**
  The child side of `external_cmd` before `execvp`: the scan that separates
  redirection words from the program's arguments, and `get_absolute_path`,
  which makes file names absolute against the current directory.
 */
module Redirect {
  import opened Wrappers

  /** `get_absolute_path`: a name starting with `/` is kept; any other name
      is taken relative to `cwd`. The source indexes the name's first byte,
      so an empty name is outside its domain. */
  function AbsolutePath(name: string, cwd: string): (r: string)
    requires name != ""
    ensures |r| >= |name| && r[|r| - |name|..] == name
    ensures r == name <==> name[0] == '/'
    ensures r != name ==> r[..|r| - |name|] == cwd + "/"
    ensures cwd != "" && cwd[0] == '/' ==> r[0] == '/'
  {
    if name[0] == '/' then name else cwd + "/" + name
  }

  /** Resolving twice is resolving once, as long as the directory itself is
      absolute (as the operating system reports it). */
  lemma AbsolutePathIdempotent(name: string, cwd: string)
    requires name != ""
    requires cwd != "" && cwd[0] == '/'
    ensures AbsolutePath(AbsolutePath(name, cwd), cwd) == AbsolutePath(name, cwd)
  {
    var once := AbsolutePath(name, cwd);
    assert once[0] == '/';
  }

  /** `CString::new` rejects a path holding NUL. A resolved path holds one
      exactly when the name does, as long as the directory does not (the
      directory the operating system reports never does). */
  lemma AbsolutePathNul(name: string, cwd: string)
    requires name != "" && '\0' !in cwd
    ensures '\0' in AbsolutePath(name, cwd) <==> '\0' in name
  {
  }

  /** Which standard stream a redirection rebinds. */
  datatype Stream = Stdin | Stdout

  /** What one word of the command line is to the scan: a plain argument; a
      word starting with `<` or `>` (`bare` when it is that character alone);
      or the word right after a bare marker, which names the marker's file
      whatever it looks like. */
  datatype Role = Arg | Marker(stream: Stream, bare: bool) | FileName(stream: Stream)

  /** The role a word has on its own, from its first character. */
  function Classify(w: string): Role
  {
    if |w| > 0 && w[0] == '<' then Marker(Stdin, |w| == 1)
    else if |w| > 0 && w[0] == '>' then Marker(Stdout, |w| == 1)
    else Arg
  }

  predicate IsBareMarker(r: Role)
  {
    r.Marker? && r.bare
  }

  /** The role of the word at position `j`: a bare marker claims its right
      neighbour as a file name; otherwise the word's own shape decides. */
  function RoleAt(words: seq<string>, j: nat): Role
    requires j < |words|
  {
    if j == 0 then Classify(words[0])
    else
      var previous := RoleAt(words, j - 1);
      if IsBareMarker(previous) then FileName(previous.stream) else Classify(words[j])
  }

  /** The file name the word at position `j` gives `stream`, if any: the
      tail of an attached marker, or a claimed word whole. */
  function TargetAt(words: seq<string>, j: nat, stream: Stream): Option<string>
    requires j < |words|
  {
    TargetOf(RoleAt(words, j), words[j], stream)
  }

  /** The file name a word with this role gives `stream`, if any. */
  function TargetOf(role: Role, w: string, stream: Stream): Option<string>
  {
    match role
    case Marker(s, bare) => if s == stream && !bare && |w| > 0 then Some(w[1..]) else None
    case FileName(s) => if s == stream then Some(w) else None
    case Arg => None
  }

  /** The file name a word with this role gives either stream, if any. */
  function NameOf(role: Role, w: string): Option<string>
  {
    var toIn := TargetOf(role, w, Stdin);
    if toIn.Some? then toIn else TargetOf(role, w, Stdout)
  }

  /** The file name the word at position `j` gives, if any. */
  function NameAt(words: seq<string>, j: nat): Option<string>
    requires j < |words|
  {
    NameOf(RoleAt(words, j), words[j])
  }

  /** The plain arguments among the first `n` words, in order. */
  function ArgvOf(words: seq<string>, n: nat): (r: seq<string>)
    requires n <= |words|
    ensures |r| <= n
    ensures forall k :: 0 <= k < |r| ==> Classify(r[k]) == Arg
  {
    if n == 0 then []
    else ArgvOf(words, n - 1) + (if RoleAt(words, n - 1) == Arg then [words[n - 1]] else [])
  }

  predicate NonEmptyWords(words: seq<string>)
  {
    forall i :: 0 <= i < |words| ==> words[i] != ""
  }

  /** The scan fails exactly when the last word is a bare marker: the source
      then reads one word past the end of the line. */
  predicate EndsInBareMarker(words: seq<string>)
  {
    |words| > 0 && IsBareMarker(RoleAt(words, |words| - 1))
  }

  /** What the scan hands to `execvp` and `dup2`: the program's argument
      vector, the last input and output files (absolute), and every file the
      scan created on the way, in order (the source creates each named file,
      input files included, before opening it). */
  datatype Redirection = Redirection(argv: seq<string>, input: Option<string>, output: Option<string>, created: seq<string>)

  /** The file a stream is redirected to, if any. */
  function StreamOf(acc: Redirection, stream: Stream): Option<string>
  {
    if stream == Stdin then acc.input else acc.output
  }

  /** Nothing scanned yet: no arguments, both streams inherited. */
  const NoRedirection := Redirection([], None, None, [])

  /** Records an absolute path for `stream`, replacing any earlier one. */
  function Redirect(acc: Redirection, stream: Stream, path: string): Redirection
  {
    var acc' := acc.(created := acc.created + [path]);
    if stream == Stdin then acc'.(input := Some(path)) else acc'.(output := Some(path))
  }

  /** One word's effect on the scan, given its role: an argument is kept, a
      claimed word or an attached marker's tail is made absolute and
      recorded for its stream, a bare marker waits for the next word. A
      word adds at most one entry: one argument or one created file. */
  function Absorb(acc: Redirection, role: Role, w: string, cwd: string): (r: Redirection)
    requires w != "" && (role.Marker? ==> role == Classify(w))
    ensures |r.argv| + |r.created| <= |acc.argv| + |acc.created| + 1
  {
    match role
    case Arg => acc.(argv := acc.argv + [w])
    case Marker(stream, bare) => if bare then acc else Redirect(acc, stream, AbsolutePath(w[1..], cwd))
    case FileName(stream) => Redirect(acc, stream, AbsolutePath(w, cwd))
  }

  /** One word leaves a stream alone unless it names a file for it, and
      then sets the stream to that file made absolute. */
  lemma AbsorbStream(acc: Redirection, role: Role, w: string, cwd: string, stream: Stream)
    requires w != "" && (role.Marker? ==> role == Classify(w))
    ensures TargetOf(role, w, stream).None? ==> StreamOf(Absorb(acc, role, w, cwd), stream) == StreamOf(acc, stream)
    ensures TargetOf(role, w, stream).Some? ==>
      (TargetOf(role, w, stream).value != ""
       && StreamOf(Absorb(acc, role, w, cwd), stream) == Some(AbsolutePath(TargetOf(role, w, stream).value, cwd)))
  {
  }

  /** A word adds itself to the arguments exactly when it is one. */
  lemma AbsorbArgv(acc: Redirection, role: Role, w: string, cwd: string)
    requires w != "" && (role.Marker? ==> role == Classify(w))
    ensures Absorb(acc, role, w, cwd).argv == acc.argv + (if role == Arg then [w] else [])
  {
  }

  /** A word keeps every file created before it, and a stream it redirects
      points at a file it created. */
  lemma AbsorbCreated(acc: Redirection, role: Role, w: string, cwd: string)
    requires w != "" && (role.Marker? ==> role == Classify(w))
    ensures acc.created <= Absorb(acc, role, w, cwd).created
    ensures var acc' := Absorb(acc, role, w, cwd);
      (acc'.input.Some? && acc'.input != acc.input ==> acc'.input.value in acc'.created)
      && (acc'.output.Some? && acc'.output != acc.output ==> acc'.output.value in acc'.created)
  {
    AbsorbCreatedExactly(acc, role, w, cwd);
  }

  /** A marker role always comes from the word's own shape. */
  lemma MarkerRoleIsOwn(words: seq<string>, j: nat)
    requires j < |words|
    ensures RoleAt(words, j).Marker? ==> RoleAt(words, j) == Classify(words[j])
  {
  }

  /** The scan's state after the first `n` words, position by position.
      Each word either becomes an argument, or names at most one file, or
      (a bare marker) does neither. */
  function ScanUpTo(words: seq<string>, n: nat, cwd: string): (r: Redirection)
    requires n <= |words| && NonEmptyWords(words)
    ensures |r.argv| + |r.created| <= n
  {
    if n == 0 then NoRedirection
    else
      MarkerRoleIsOwn(words, n - 1);
      Absorb(ScanUpTo(words, n - 1, cwd), RoleAt(words, n - 1), words[n - 1], cwd)
  }

  /** A word names a file only when the name is not empty. */
  lemma NamesAreNonEmpty(words: seq<string>, j: nat)
    requires j < |words| && NonEmptyWords(words)
    ensures NameAt(words, j).Some? ==> NameAt(words, j).value != ""
  {
    MarkerRoleIsOwn(words, j);
  }

  /** The absolute paths of the files the first `n` words name, in order:
      the position-by-position account of what the scan creates. */
  function CreatedOf(words: seq<string>, n: nat, cwd: string): (r: seq<string>)
    requires n <= |words| && NonEmptyWords(words)
    ensures |r| <= n
  {
    if n == 0 then []
    else
      NamesAreNonEmpty(words, n - 1);
      var name := NameAt(words, n - 1);
      CreatedOf(words, n - 1, cwd) + (if name.Some? then [AbsolutePath(name.value, cwd)] else [])
  }

  /** A word adds to the created files exactly the file it names. */
  lemma AbsorbCreatedExactly(acc: Redirection, role: Role, w: string, cwd: string)
    requires w != "" && (role.Marker? ==> role == Classify(w))
    ensures NameOf(role, w).Some? ==> NameOf(role, w).value != ""
    ensures Absorb(acc, role, w, cwd).created
         == acc.created + (if NameOf(role, w).Some? then [AbsolutePath(NameOf(role, w).value, cwd)] else [])
  {
  }

  /** The scan creates every file a word names, each once, in the order
      of the words. */
  lemma {:induction false} ScanCreated(words: seq<string>, n: nat, cwd: string)
    requires n <= |words| && NonEmptyWords(words)
    ensures ScanUpTo(words, n, cwd).created == CreatedOf(words, n, cwd)
  {
    if n > 0 {
      ScanCreated(words, n - 1, cwd);
      MarkerRoleIsOwn(words, n - 1);
      var previous := ScanUpTo(words, n - 1, cwd);
      var role, w := RoleAt(words, n - 1), words[n - 1];
      assert ScanUpTo(words, n, cwd) == Absorb(previous, role, w, cwd);
      AbsorbCreatedExactly(previous, role, w, cwd);
    }
  }

  /** Files once created stay in the list as the scan goes on. */
  lemma {:induction false} CreatedGrows(words: seq<string>, m: nat, n: nat, cwd: string)
    requires m <= n <= |words| && NonEmptyWords(words)
    ensures ScanUpTo(words, m, cwd).created <= ScanUpTo(words, n, cwd).created
    decreases n
  {
    if m < n {
      CreatedGrows(words, m, n - 1, cwd);
      MarkerRoleIsOwn(words, n - 1);
      var previous := ScanUpTo(words, n - 1, cwd);
      assert ScanUpTo(words, n, cwd) == Absorb(previous, RoleAt(words, n - 1), words[n - 1], cwd);
      AbsorbCreated(previous, RoleAt(words, n - 1), words[n - 1], cwd);
    }
  }

  /** Whether any of the strings holds a NUL character, which
      `CString::new` rejects. */
  predicate HasNul(strings: seq<string>)
  {
    exists k :: 0 <= k < |strings| && '\0' in strings[k]
  }

  /** A created path holding NUL is still in the list at the end. */
  lemma NulPathFails(words: seq<string>, n: nat, cwd: string, path: string)
    requires n <= |words| && NonEmptyWords(words)
    requires path in ScanUpTo(words, n, cwd).created && '\0' in path
    ensures HasNul(ScanUpTo(words, |words|, cwd).created)
  {
    CreatedGrows(words, n, |words|, cwd);
    var before := ScanUpTo(words, n, cwd).created;
    var k :| 0 <= k < |before| && before[k] == path;
    assert ScanUpTo(words, |words|, cwd).created[k] == path;
  }

  /** Adding a path without NUL to paths without NUL keeps them so. */
  lemma NulFreeAppend(paths: seq<string>, path: string)
    requires !HasNul(paths) && '\0' !in path
    ensures !HasNul(paths + [path])
  {
    forall k | 0 <= k < |paths + [path]|
      ensures '\0' !in (paths + [path])[k]
    {
      if k < |paths| {
        assert (paths + [path])[k] == paths[k];
      }
    }
  }

  /** How the child can fail before `execvp`, each time by a panic: a file
      path holding NUL (`CString::new` before `create_file`), a bare marker
      with nothing after it, no program word left once redirections are
      removed (both out-of-range indexing), or an argument holding NUL
      (`CString::new` while building the argument vector). */
  datatype ChildError = NulInFileName | MissingFileName | NoProgram | NulInArgument

  /** After a word that is not a bare marker the next word has its own role. */
  lemma NextRole(words: seq<string>, i: nat)
    requires i + 1 < |words| && !IsBareMarker(RoleAt(words, i))
    ensures RoleAt(words, i + 1) == Classify(words[i + 1])
  {
  }

  /** The scan's arguments are exactly the plain arguments, in order. */
  lemma {:induction false} ScanArgv(words: seq<string>, n: nat, cwd: string)
    requires n <= |words| && NonEmptyWords(words)
    ensures ScanUpTo(words, n, cwd).argv == ArgvOf(words, n)
  {
    if n > 0 {
      ScanArgv(words, n - 1, cwd);
      MarkerRoleIsOwn(words, n - 1);
      var previous := ScanUpTo(words, n - 1, cwd);
      var role, w := RoleAt(words, n - 1), words[n - 1];
      assert ScanUpTo(words, n, cwd) == Absorb(previous, role, w, cwd);
      AbsorbArgv(previous, role, w, cwd);
      assert ArgvOf(words, n) == ArgvOf(words, n - 1) + (if role == Arg then [w] else []);
    }
  }

  /** Later redirections win: the file of the last word naming one for
      `stream` is the one in effect. */
  lemma {:induction false} LastRedirectionWins(words: seq<string>, j: nat, n: nat, stream: Stream, cwd: string)
    requires j < n <= |words| && NonEmptyWords(words)
    requires TargetAt(words, j, stream).Some?
    requires forall k :: j < k < n ==> TargetAt(words, k, stream).None?
    ensures TargetAt(words, j, stream).value != ""
    ensures StreamOf(ScanUpTo(words, n, cwd), stream) == Some(AbsolutePath(TargetAt(words, j, stream).value, cwd))
    decreases n
  {
    MarkerRoleIsOwn(words, n - 1);
    var previous := ScanUpTo(words, n - 1, cwd);
    var role, w := RoleAt(words, n - 1), words[n - 1];
    assert ScanUpTo(words, n, cwd) == Absorb(previous, role, w, cwd);
    AbsorbStream(previous, role, w, cwd, stream);
    if n - 1 > j {
      assert TargetAt(words, n - 1, stream).None?;
      LastRedirectionWins(words, j, n - 1, stream, cwd);
    } else {
      assert TargetAt(words, j, stream) == TargetOf(role, w, stream);
    }
  }

  /** A stream no word redirects stays inherited. */
  lemma {:induction false} UnredirectedStreamInherited(words: seq<string>, n: nat, stream: Stream, cwd: string)
    requires n <= |words| && NonEmptyWords(words)
    requires forall k :: 0 <= k < n ==> TargetAt(words, k, stream).None?
    ensures StreamOf(ScanUpTo(words, n, cwd), stream) == None
  {
    if n > 0 {
      UnredirectedStreamInherited(words, n - 1, stream, cwd);
      assert TargetAt(words, n - 1, stream).None?;
      MarkerRoleIsOwn(words, n - 1);
      var previous := ScanUpTo(words, n - 1, cwd);
      var role, w := RoleAt(words, n - 1), words[n - 1];
      assert ScanUpTo(words, n, cwd) == Absorb(previous, role, w, cwd);
      AbsorbStream(previous, role, w, cwd, stream);
    }
  }

  /** Every file a stream is redirected to was created by the scan first. */
  lemma {:induction false} RedirectedFilesCreated(words: seq<string>, n: nat, cwd: string)
    requires n <= |words| && NonEmptyWords(words)
    ensures ScanUpTo(words, n, cwd).input.Some? ==> ScanUpTo(words, n, cwd).input.value in ScanUpTo(words, n, cwd).created
    ensures ScanUpTo(words, n, cwd).output.Some? ==> ScanUpTo(words, n, cwd).output.value in ScanUpTo(words, n, cwd).created
  {
    if n > 0 {
      RedirectedFilesCreated(words, n - 1, cwd);
      MarkerRoleIsOwn(words, n - 1);
      var previous := ScanUpTo(words, n - 1, cwd);
      var role, w := RoleAt(words, n - 1), words[n - 1];
      assert ScanUpTo(words, n, cwd) == Absorb(previous, role, w, cwd);
      AbsorbCreated(previous, role, w, cwd);
    }
  }

  /** A line without markers runs with its words as they are and both
      streams inherited. */
  lemma {:induction false} PlainWordsPassThrough(words: seq<string>, n: nat, cwd: string)
    requires n <= |words| && NonEmptyWords(words)
    requires forall k :: 0 <= k < |words| ==> Classify(words[k]) == Arg
    ensures ScanUpTo(words, n, cwd) == Redirection(words[..n], None, None, [])
  {
    if n > 0 {
      PlainWordsPassThrough(words, n - 1, cwd);
      assert words[..n] == words[..n - 1] + [words[n - 1]];
      if n > 1 {
        assert !IsBareMarker(RoleAt(words, n - 2));
      }
    }
  }

  /** `sort <in > /tmp/o` in `/w` reads `/w/in` and writes `/tmp/o`. */
  lemma SortExample()
    ensures ScanUpTo(["sort", "<in", ">", "/tmp/o"], 4, "/w")
         == Redirection(["sort"], Some("/w/in"), Some("/tmp/o"), ["/w/in", "/tmp/o"])
  {
    var words := ["sort", "<in", ">", "/tmp/o"];
    assert RoleAt(words, 0) == Arg;
    assert RoleAt(words, 1) == Marker(Stdin, false);
    assert RoleAt(words, 2) == Marker(Stdout, true);
    assert RoleAt(words, 3) == FileName(Stdout);
    assert "<in"[1..] == "in";
    assert AbsolutePath("in", "/w") == "/w/in";
  }

  /** One iteration of the child's loop, from a word that has its own role:
      an argument or an attached marker takes one step of the scan; a bare
      marker either runs off the end of the words or takes two steps, the
      second for the file name it claims. Afterwards the next word again has
      its own role, and the scan knows whether the words end in a bare
      marker. */
  lemma {:induction false} ScanStep(words: seq<string>, i: nat, cwd: string)
    requires i < |words| && NonEmptyWords(words)
    requires RoleAt(words, i) == Classify(words[i])
    ensures var w, acc := words[i], ScanUpTo(words, i, cwd);
      var bare := IsBareMarker(Classify(w));
      && (Classify(w) == Arg ==> ScanUpTo(words, i + 1, cwd) == acc.(argv := acc.argv + [w]))
      && (Classify(w).Marker? && !bare ==>
           ScanUpTo(words, i + 1, cwd) == Redirect(acc, Classify(w).stream, AbsolutePath(w[1..], cwd)))
      && (!bare && i + 1 < |words| ==> RoleAt(words, i + 1) == Classify(words[i + 1]))
      && (!bare && i + 1 == |words| ==> !EndsInBareMarker(words))
      && (bare ==> ScanUpTo(words, i + 1, cwd) == acc)
      && (bare && i + 1 == |words| ==> EndsInBareMarker(words))
      && (bare && i + 1 < |words| ==>
           ScanUpTo(words, i + 2, cwd) == Redirect(acc, Classify(w).stream, AbsolutePath(words[i + 1], cwd)))
      && (bare && i + 2 < |words| ==> RoleAt(words, i + 2) == Classify(words[i + 2]))
      && (bare && i + 2 == |words| ==> !EndsInBareMarker(words))
  {
    var w, acc := words[i], ScanUpTo(words, i, cwd);
    MarkerRoleIsOwn(words, i);
    assert ScanUpTo(words, i + 1, cwd) == Absorb(acc, Classify(w), w, cwd);
    if IsBareMarker(Classify(w)) {
      if i + 1 < |words| {
        assert RoleAt(words, i + 1) == FileName(Classify(w).stream);
        assert ScanUpTo(words, i + 2, cwd) == Absorb(acc, FileName(Classify(w).stream), words[i + 1], cwd);
        if i + 2 < |words| {
          NextRole(words, i + 1);
        }
      }
    } else if i + 1 < |words| {
      NextRole(words, i);
    }
  }

  /** The `'<'|'>'` arm of the child's loop, for the marker word at `i`:
      it takes the file name (the marker's tail, or the next word for a
      bare marker), makes it absolute, and records it, unless the name is
      missing or the path holds NUL. On success it says where the loop
      goes on. */
  method TakeFile(words: seq<string>, i: nat, cwd: string, acc: Redirection) returns (j: nat, r: Result<Redirection, ChildError>)
    requires i < |words| && NonEmptyWords(words)
    requires RoleAt(words, i) == Classify(words[i]) && Classify(words[i]).Marker?
    requires acc == ScanUpTo(words, i, cwd) && !HasNul(acc.created)
    ensures r.Ok? || r == Err(NulInFileName) || r == Err(MissingFileName)
    ensures r == Err(NulInFileName) ==> HasNul(ScanUpTo(words, |words|, cwd).created)
    ensures r == Err(MissingFileName) ==> EndsInBareMarker(words) && ScanUpTo(words, |words|, cwd) == acc
    ensures r.Ok? ==> j == i + (if |words[i]| == 1 then 2 else 1)
    ensures r.Ok? ==> j <= |words| && r.value == ScanUpTo(words, j, cwd) && !HasNul(r.value.created)
    ensures r.Ok? && j < |words| ==> RoleAt(words, j) == Classify(words[j])
    ensures r.Ok? && j == |words| ==> !EndsInBareMarker(words)
  {
    var w := words[i];
    ScanStep(words, i, cwd);
    var stream := if w[0] == '<' then Stdin else Stdout;
    assert stream == Classify(w).stream;
    var name: string;
    if |w| == 1 {
      if i + 1 == |words| {
        return 0, Err(MissingFileName);
      }
      j := i + 2;
      name := words[i + 1];
    } else {
      j := i + 1;
      name := w[1..];
    }
    var path := AbsolutePath(name, cwd);
    var next := Redirect(acc, stream, path);
    assert next == ScanUpTo(words, j, cwd);
    if '\0' in path {
      NulPathFails(words, j, cwd, path);
      return 0, Err(NulInFileName);
    }
    NulFreeAppend(acc.created, path);
    r := Ok(next);
  }

  /** The child's loop over its words, as the source performs it. The
      words come from the parser, so they are non-empty and there is at
      least one. The loop stops at the first word it cannot handle: a file
      path holding NUL stops it where it stands, and a bare marker can only
      fail as the last word, after every file has been named. */
  method ScanWords(words: seq<string>, cwd: string) returns (r: Result<Redirection, ChildError>)
    requires |words| > 0 && NonEmptyWords(words)
    ensures r.Ok? || r == Err(NulInFileName) || r == Err(MissingFileName)
    ensures r == Err(NulInFileName) <==> HasNul(ScanUpTo(words, |words|, cwd).created)
    ensures r == Err(MissingFileName) <==> !HasNul(ScanUpTo(words, |words|, cwd).created) && EndsInBareMarker(words)
    ensures r.Ok? ==> r.value == ScanUpTo(words, |words|, cwd)
  {
    var acc := NoRedirection;
    var i := 0;
    while i < |words|
      invariant 0 <= i <= |words|
      invariant i < |words| ==> RoleAt(words, i) == Classify(words[i])
      invariant i == |words| ==> !EndsInBareMarker(words)
      invariant acc == ScanUpTo(words, i, cwd)
      invariant !HasNul(acc.created)
      decreases |words| - i
    {
      var w := words[i];
      if w[0] == '<' || w[0] == '>' {
        var next;
        i, next := TakeFile(words, i, cwd, acc);
        if next.Err? {
          return next;
        }
        acc := next.value;
      } else {
        ScanStep(words, i, cwd);
        acc := acc.(argv := acc.argv + [w]);
        i := i + 1;
      }
    }
    r := Ok(acc);
  }

  /** The child's work before `execvp`: the scan, then the program-name
      lookup and the conversion of the arguments to C strings. Each failure
      is the first one the source meets in that order. */
  method ResolveChild(words: seq<string>, cwd: string) returns (r: Result<Redirection, ChildError>)
    requires |words| > 0 && NonEmptyWords(words)
    ensures var scan := ScanUpTo(words, |words|, cwd);
      r == Err(NulInFileName) <==> HasNul(scan.created)
    ensures var scan := ScanUpTo(words, |words|, cwd);
      r == Err(MissingFileName) <==> !HasNul(scan.created) && EndsInBareMarker(words)
    ensures var scan := ScanUpTo(words, |words|, cwd);
      r == Err(NoProgram) <==> !HasNul(scan.created) && !EndsInBareMarker(words) && scan.argv == []
    ensures var scan := ScanUpTo(words, |words|, cwd);
      r == Err(NulInArgument) <==> !HasNul(scan.created) && !EndsInBareMarker(words) && scan.argv != [] && HasNul(scan.argv)
    ensures r.Ok? ==> r.value == ScanUpTo(words, |words|, cwd) && r.value.argv != []
                      && !HasNul(r.value.argv) && !HasNul(r.value.created)
  {
    r := ScanWords(words, cwd);
    if r.Ok? {
      if r.value.argv == [] {
        r := Err(NoProgram);
      } else if HasNul(r.value.argv) {
        r := Err(NulInArgument);
      }
    }
  }
}

=== FILE: shell.dfy ===
/**
  One turn of the shell's read loop seen from the parent process: the line
  is recorded and parsed, the action is chosen, and an external command run
  in the background is registered as a job. Process creation is an input:
  `fork` is what the operating system answered.
 */
module Shell {
  import opened Text
  import opened State
  import opened Parser
  import opened Dispatch
  import Redirect

  /** The parent's view of `fork()`: it failed (`ForkError` is printed), or
      a child with this process id exists. */
  datatype ForkOutcome = ForkFailed | Forked(pid: int)

  /** A turn either ends the shell at end of input, or runs an action. */
  datatype StepResult = Stopped(history: History) | Ran(history: History, action: Action)

  /** The parent side of `external_cmd`: a forked background command is
      appended to the jobs; a foreground command is waited for and a failed
      fork records nothing, so the jobs stay as they were. */
  function RecordJob(h: History, cmd: Command, fork: ForkOutcome): (r: History)
    ensures r.hist == h.hist
    ensures r.jobs == h.jobs <==> !(cmd.background && fork.Forked?)
    ensures cmd.background && fork.Forked? ==> r.jobs == h.jobs + [Job(fork.pid, cmd.args)]
  {
    match fork
    case ForkFailed => h
    case Forked(pid) => if cmd.background then h.(jobs := h.jobs + [Job(pid, cmd.args)]) else h
  }

  /** A job as the shell can create one: started by an external command,
      so its first word is not a builtin and all its words are tokens. */
  predicate WellFormedJob(j: Job)
  {
    && |j.args| > 0
    && j.args[0] !in Builtins
    && forall i :: 0 <= i < |j.args| ==> IsWord(j.args[i])
  }

  predicate WellFormedJobs(h: History)
  {
    forall k :: 0 <= k < |h.jobs| ==> WellFormedJob(h.jobs[k])
  }

  /** One turn: `parse_cmd`, then `execute_cmd`. The raw line always joins
      the history; the job list grows by one entry exactly for a
      backgrounded external command whose fork succeeded, and never shrinks. */
  function Step(h: History, line: string, fork: ForkOutcome): (r: StepResult)
    ensures r.history.hist == h.hist + [line]
    ensures r.Stopped? <==> line == []
    ensures r.Stopped? ==> r.history.jobs == h.jobs
    ensures r.Ran? ==> r.action == ActionOf(ParseLine(line).cmd.args)
    ensures r.Ran? ==> (r.history.jobs != h.jobs <==> r.action.External? && ParseLine(line).cmd.background && fork.Forked?)
    ensures r.history.jobs != h.jobs ==> r.history.jobs == h.jobs + [Job(fork.pid, ParseLine(line).cmd.args)]
    ensures WellFormedJobs(h) ==> WellFormedJobs(r.history)
  {
    var parsed := ParseCmd(line, h);
    match parsed.result
    case EndOfInput => Stopped(parsed.history)
    case Line(cmd) =>
      var action := ActionOf(cmd.args);
      if action.External? then Ran(RecordJob(parsed.history, cmd, fork), action)
      else Ran(parsed.history, action)
  }

  /** Whether an action ends the shell process itself: `exit`; `kill` with
      a word `parse::<i32>` rejects, whose `unwrap` panics; `kill` of process
      id 0, which sends `SIGTERM` to the shell's own process group and so to
      the shell; and `cd` to a
      directory whose name holds a NUL character, which `CString::new`
      rejects before `chdir` is reached, so its `unwrap` panics too. The
      path checked there is the operand made absolute, and the directory
      the operating system reports never holds NUL, so the operand decides
      (Redirect.AbsolutePathNul). */
  predicate EndsShell(a: Action)
  {
    || a.Exit?
    || (a.Kill? && (!ParsesAsPid(a.pid) || PidValue(a.pid) == 0))
    || (a.Cd? && '\0' in a.dest)
  }

  /** Whether the shell keeps reading after a turn: not at end of input,
      and not after an action that ends the process. */
  predicate Continues(r: StepResult)
  {
    r.Ran? && !EndsShell(r.action)
  }

  /** The lines that end the read loop, judged from the line alone: end of
      input, or a command that ends the process. */
  predicate Stops(line: string)
  {
    line == [] || EndsShell(ActionOf(ParseLine(line).cmd.args))
  }

  /** The read loop over a sequence of input lines, with the fork outcome
      each would meet; it ends at end of input, at `exit`, at a `kill` or
      `cd` panic, or when the lines run out. Each line read adds one history entry and
      at most one job. */
  function Run(h: History, lines: seq<string>, forks: seq<ForkOutcome>): (r: History)
    requires |forks| == |lines|
    ensures |h.hist| <= |r.hist| <= |h.hist| + |lines|
    ensures |lines| > 0 ==> |r.hist| > |h.hist|
    ensures |h.jobs| <= |r.jobs| <= |h.jobs| + (|r.hist| - |h.hist|)
    decreases |lines|
  {
    if |lines| == 0 then h
    else
      var r := Step(h, lines[0], forks[0]);
      if Continues(r) then Run(r.history, lines[1..], forks[1..]) else r.history
  }

  /** How many of the lines the read loop consumes before it stops. */
  function LinesRead(h: History, lines: seq<string>, forks: seq<ForkOutcome>): (k: nat)
    requires |forks| == |lines|
    ensures k <= |lines|
    ensures |lines| > 0 ==> k >= 1
    decreases |lines|
  {
    if |lines| == 0 then 0
    else
      var r := Step(h, lines[0], forks[0]);
      if Continues(r) then 1 + LinesRead(r.history, lines[1..], forks[1..]) else 1
  }

  /** A turn goes on exactly when its line does not stop the loop, whatever
      the history and the fork outcome. */
  lemma ContinuesUnlessStops(h: History, line: string, fork: ForkOutcome)
    ensures Continues(Step(h, line, fork)) <==> !Stops(line)
  {
  }

  /** The loop reads up to and including the first line that stops it, or
      every line when none does: no line before the last one read stops it,
      and when lines are left over, the last one read did. */
  lemma {:induction false} LinesReadStopsAtFirstStop(h: History, lines: seq<string>, forks: seq<ForkOutcome>)
    requires |forks| == |lines|
    ensures var k := LinesRead(h, lines, forks);
      && (forall i :: 0 <= i < k - 1 ==> !Stops(lines[i]))
      && (0 < k < |lines| ==> Stops(lines[k - 1]))
    decreases |lines|
  {
    if |lines| > 0 {
      var r := Step(h, lines[0], forks[0]);
      ContinuesUnlessStops(h, lines[0], forks[0]);
      if Continues(r) {
        var rest, restForks := lines[1..], forks[1..];
        LinesReadStopsAtFirstStop(r.history, rest, restForks);
        var k := LinesRead(r.history, rest, restForks);
        assert LinesRead(h, lines, forks) == 1 + k;
        forall i | 1 <= i < k
          ensures !Stops(lines[i])
        {
          assert lines[i] == rest[i - 1];
        }
        if 0 < k < |rest| {
          assert lines[k] == rest[k - 1];
        }
      }
    }
  }

  /** The first turn of a run: it leaves the history `next`, and then either
      the loop goes on with the rest of the lines, or it ends after this
      line. */
  lemma RunFirstTurn(h: History, lines: seq<string>, forks: seq<ForkOutcome>) returns (next: History, goes: bool)
    requires |forks| == |lines| > 0
    ensures next.hist == h.hist + [lines[0]]
    ensures goes ==> Run(h, lines, forks) == Run(next, lines[1..], forks[1..])
    ensures goes ==> LinesRead(h, lines, forks) == 1 + LinesRead(next, lines[1..], forks[1..])
    ensures !goes ==> Run(h, lines, forks) == next && LinesRead(h, lines, forks) == 1
  {
    var r := Step(h, lines[0], forks[0]);
    next, goes := r.history, Continues(r);
  }

  /** Reading one line and then `k` more is reading `1 + k` lines. */
  lemma PrefixAfterFirst(before: seq<string>, lines: seq<string>, k: nat)
    requires k < |lines|
    ensures before + lines[..1 + k] == (before + [lines[0]]) + lines[1..][..k]
  {
    assert lines[..1 + k] == [lines[0]] + lines[1..][..k];
  }

  /** Over any run, the history is the old one followed by exactly the
      lines read, unmodified and in order. */
  lemma {:induction false} RunRecordsLinesRead(h: History, lines: seq<string>, forks: seq<ForkOutcome>)
    requires |forks| == |lines|
    ensures Run(h, lines, forks).hist == h.hist + lines[..LinesRead(h, lines, forks)]
    decreases |lines|
  {
    if |lines| > 0 {
      var next, goes := RunFirstTurn(h, lines, forks);
      if goes {
        var rest, restForks := lines[1..], forks[1..];
        var k := LinesRead(next, rest, restForks);
        RunRecordsLinesRead(next, rest, restForks);
        PrefixAfterFirst(h.hist, lines, k);
      } else {
        PrefixAfterFirst(h.hist, lines, 0);
        assert next.hist + lines[1..][..0] == next.hist;
      }
    }
  }

  /** Over any run, the old jobs stay in place at the front of the table,
      and every job the run adds is a well-formed external command. */
  lemma {:induction false} RunOnlyAddsJobs(h: History, lines: seq<string>, forks: seq<ForkOutcome>)
    requires |forks| == |lines|
    ensures h.jobs <= Run(h, lines, forks).jobs
    ensures WellFormedJobs(h) ==> WellFormedJobs(Run(h, lines, forks))
    decreases |lines|
  {
    if |lines| > 0 {
      var r := Step(h, lines[0], forks[0]);
      assert h.jobs <= r.history.jobs;
      if Continues(r) {
        RunOnlyAddsJobs(r.history, lines[1..], forks[1..]);
      }
    }
  }

  /** Every job a fresh shell records was started by an external command:
      its words, classified again, are not a builtin. */
  lemma JobsAreExternal(lines: seq<string>, forks: seq<ForkOutcome>, k: nat)
    requires |forks| == |lines|
    requires k < |Run(Empty, lines, forks).jobs|
    ensures ActionOf(Run(Empty, lines, forks).jobs[k].args).External?
  {
    RunOnlyAddsJobs(Empty, lines, forks);
    assert WellFormedJob(Run(Empty, lines, forks).jobs[k]);
  }

  /** The words of an external command meet what the child's scan needs:
      there is at least one and none is empty. */
  lemma ExternalWordsScannable(line: string)
    requires ParseLine(line).Line?
    requires ActionOf(ParseLine(line).cmd.args).External?
    ensures |ParseLine(line).cmd.args| > 0 && Redirect.NonEmptyWords(ParseLine(line).cmd.args)
  {
  }

  /** `cd` always has a directory to resolve: the operand, which is a
      non-empty token, or `/home`, which is already absolute. */
  lemma CdTargetResolvable(line: string, cwd: string)
    requires ParseLine(line).Line? && ActionOf(ParseLine(line).cmd.args).Cd?
    ensures var dest := ActionOf(ParseLine(line).cmd.args).dest;
      && dest != ""
      && (|ParseLine(line).cmd.args| == 1 ==> Redirect.AbsolutePath(dest, cwd) == HomeDir)
  {
  }

  /** `kill abc` stops the loop: `abc` is not a process id. */
  lemma KillWithoutNumberStops()
    ensures Stops("kill abc\n")
  {
    var body := "kill abc";
    assert Body("kill abc\n") == body;
    assert WordEnd(body, 0) == 4 && body[..4] == "kill" && body[4..] == " abc";
    assert " abc"[1..] == "abc" && WordEnd("abc", 0) == 3 && "abc"[..3] == "abc" && "abc"[3..] == "";
    assert Words("abc") == ["abc"];
    assert Words(body) == ["kill"] + Words(" abc");
    assert ParseLine("kill abc\n") == Line(Command(["kill", "abc"], false));
    assert ActionOf(["kill", "abc"]) == Kill("abc");
    NonNumbersDoNotParse();
  }

  /** `kill` with a word that is not a number ends the shell: the line after
      it is never read. */
  lemma KillWithoutNumberEndsRun()
    ensures LinesRead(Empty, ["kill abc\n", "ls\n"], [ForkFailed, ForkFailed]) == 1
  {
    var lines: seq<string>, forks := ["kill abc\n", "ls\n"], [ForkFailed, ForkFailed];
    KillWithoutNumberStops();
    assert lines[0] == "kill abc\n";
    LinesReadStopsAtFirstStop(Empty, lines, forks);
  }

  /** `cd` to a name holding NUL stops the loop. */
  lemma CdWithNulStops()
    ensures Stops("cd a\0b\n")
  {
    var body := "cd a\0b";
    assert Body("cd a\0b\n") == body;
    assert WordEnd(body, 0) == 2 && body[..2] == "cd" && body[2..] == " a\0b";
    assert " a\0b"[1..] == "a\0b" && WordEnd("a\0b", 0) == 3 && "a\0b"[..3] == "a\0b" && "a\0b"[3..] == "";
    assert Words("a\0b") == ["a\0b"];
    assert Words(body) == ["cd"] + Words(" a\0b");
    assert ParseLine("cd a\0b\n") == Line(Command(["cd", "a\0b"], false));
    assert ActionOf(["cd", "a\0b"]) == Cd("a\0b");
    assert "a\0b"[1] == '\0';
  }

  /** `cd` to a name holding NUL ends the shell: the line after it is never
      read. */
  lemma CdWithNulEndsRun()
    ensures LinesRead(Empty, ["cd a\0b\n", "ls\n"], [ForkFailed, ForkFailed]) == 1
  {
    var lines: seq<string>, forks := ["cd a\0b\n", "ls\n"], [ForkFailed, ForkFailed];
    CdWithNulStops();
    assert lines[0] == "cd a\0b\n";
    LinesReadStopsAtFirstStop(Empty, lines, forks);
  }

  /** `kill 0` stops the loop: it signals the shell's own process group. */
  lemma KillZeroStops()
    ensures Stops("kill 0\n")
  {
    var body := "kill 0";
    assert Body("kill 0\n") == body;
    assert WordEnd(body, 0) == 4 && body[..4] == "kill" && body[4..] == " 0";
    assert " 0"[1..] == "0" && WordEnd("0", 0) == 1 && "0"[..1] == "0" && "0"[1..] == "";
    assert Words("0") == ["0"];
    assert Words(body) == ["kill"] + Words(" 0");
    assert ParseLine("kill 0\n") == Line(Command(["kill", "0"], false));
    assert ActionOf(["kill", "0"]) == Kill("0");
    assert DecimalValue("0") == 0 by { assert "0"[..0] == ""; }
  }

  /** `kill 0` ends the shell: the line after it is never read. */
  lemma KillZeroEndsRun()
    ensures LinesRead(Empty, ["kill 0\n", "ls\n"], [ForkFailed, ForkFailed]) == 1
  {
    var lines: seq<string>, forks := ["kill 0\n", "ls\n"], [ForkFailed, ForkFailed];
    KillZeroStops();
    assert lines[0] == "kill 0\n";
    LinesReadStopsAtFirstStop(Empty, lines, forks);
  }
}

=== FILE: state.dfy ===
/** The shell's persistent state: the `History` record of the source. */
module State {

  /** A background job: the child's process id and the full word list of the
      command line that started it (redirection words included). */
  datatype Job = Job(pid: int, args: seq<string>)

  /** Every raw line read so far (`hist`) and every background job started so
      far (`jobs`); neither list ever loses an entry. */
  datatype History = History(hist: seq<string>, jobs: seq<Job>)

  /** The state at start-up: nothing read, nothing started. */
  const Empty := History([], [])
}

=== FILE: text.dfy ===
/**
  String utilities the shell is built from: splitting on a separator the way
  Rust's `str::split(char)` does, filtering out empty fields, an independent
  "maximal runs of non-space characters" tokenizer, and decimal rendering of
  line numbers.
 */
module Text {

  /** Number of occurrences of `c` in `s`. */
  function Count(s: string, c: char): nat
  {
    if |s| == 0 then 0 else (if s[0] == c then 1 else 0) + Count(s[1..], c)
  }

  /** The fields of `s` between occurrences of `sep`, empty fields included:
      `Split("a  b", ' ') == ["a", "", "b"]` and `Split("", ' ') == [""]`. */
  function Split(s: string, sep: char): (r: seq<string>)
    ensures |r| == Count(s, sep) + 1
    ensures forall i :: 0 <= i < |r| ==> sep !in r[i]
    decreases |s|
  {
    if |s| == 0 then [""]
    else
      var rest := Split(s[1..], sep);
      if s[0] == sep then [""] + rest
      else [[s[0]] + rest[0]] + rest[1..]
  }

  /** The fields rejoined with one `sep` between neighbours. */
  function Join(fields: seq<string>, sep: char): string
    requires |fields| >= 1
  {
    if |fields| == 1 then fields[0] else fields[0] + [sep] + Join(fields[1..], sep)
  }

  /** Splitting loses nothing: rejoining the fields gives back the string. */
  lemma {:induction false} JoinSplit(s: string, sep: char)
    ensures Join(Split(s, sep), sep) == s
    decreases |s|
  {
    if |s| > 0 {
      var rest := Split(s[1..], sep);
      JoinSplit(s[1..], sep);
      if s[0] == sep {
        assert Split(s, sep)[1..] == rest;
        assert s == [sep] + s[1..];
      } else if |rest| == 1 {
        assert s == [s[0]] + s[1..];
      } else {
        var r := Split(s, sep);
        assert r[1..] == rest[1..];
        assert Join(rest, sep) == rest[0] + [sep] + Join(rest[1..], sep);
        assert s == [s[0]] + s[1..];
      }
    }
  }

  /** A separator-free prefix sticks to the first field. */
  lemma {:induction false} SplitPrefix(w: string, t: string, sep: char)
    requires sep !in w
    ensures Split(w + t, sep) == [w + Split(t, sep)[0]] + Split(t, sep)[1..]
    decreases |w|
  {
    if |w| > 0 {
      SplitPrefix(w[1..], t, sep);
      assert (w + t)[1..] == w[1..] + t;
      assert [w[0]] + (w[1..] + Split(t, sep)[0]) == w + Split(t, sep)[0];
    } else {
      assert w + t == t;
      assert w + Split(t, sep)[0] == Split(t, sep)[0];
      assert Split(t, sep) == [Split(t, sep)[0]] + Split(t, sep)[1..];
    }
  }

  /** The other direction of the round trip: fields without separators are
      recovered exactly from their join. */
  lemma {:induction false} SplitJoin(fields: seq<string>, sep: char)
    requires |fields| >= 1
    requires forall i :: 0 <= i < |fields| ==> sep !in fields[i]
    ensures Split(Join(fields, sep), sep) == fields
    decreases |fields|
  {
    if |fields| > 1 {
      var tail := Join(fields[1..], sep);
      SplitJoin(fields[1..], sep);
      assert Join(fields, sep) == fields[0] + ([sep] + tail);
      SplitPrefix(fields[0], [sep] + tail, sep);
      assert ([sep] + tail)[1..] == tail;
      assert Split([sep] + tail, sep) == [""] + Split(tail, sep);
      assert fields[0] + "" == fields[0];
      assert fields == [fields[0]] + fields[1..];
    } else {
      SplitPrefix(fields[0], "", sep);
      assert fields[0] + "" == fields[0];
    }
  }

  /** Keeps the non-empty fields, in their original order. */
  function DeleteEmpty(fields: seq<string>): (r: seq<string>)
    ensures |r| <= |fields|
    ensures forall i :: 0 <= i < |r| ==> r[i] != ""
    ensures forall x :: x in r <==> x in fields && x != ""
  {
    if |fields| == 0 then []
    else (if fields[0] == "" then [] else [fields[0]]) + DeleteEmpty(fields[1..])
  }

  /** Filtering distributes over concatenation, so relative order is kept. */
  lemma {:induction false} DeleteEmptyAppend(a: seq<string>, b: seq<string>)
    ensures DeleteEmpty(a + b) == DeleteEmpty(a) + DeleteEmpty(b)
    decreases |a|
  {
    if |a| == 0 {
      assert a + b == b;
    } else {
      DeleteEmptyAppend(a[1..], b);
      var head := if a[0] == "" then [] else [a[0]];
      assert (a + b)[0] == a[0] && (a + b)[1..] == a[1..] + b;
      assert DeleteEmpty(a + b) == head + DeleteEmpty(a[1..] + b);
      assert DeleteEmpty(a) == head + DeleteEmpty(a[1..]);
      assert head + (DeleteEmpty(a[1..]) + DeleteEmpty(b)) == (head + DeleteEmpty(a[1..])) + DeleteEmpty(b);
    }
  }

  /** Filtering a second time changes nothing. */
  lemma {:induction false} DeleteEmptyIdempotent(fields: seq<string>)
    ensures DeleteEmpty(DeleteEmpty(fields)) == DeleteEmpty(fields)
    decreases |fields|
  {
    if |fields| > 0 {
      DeleteEmptyIdempotent(fields[1..]);
      var head := if fields[0] == "" then [] else [fields[0]];
      DeleteEmptyAppend(head, DeleteEmpty(fields[1..]));
      if fields[0] != "" {
        assert head[1..] == [];
      }
    }
  }

  /** First index at or after `i` holding a space, or `|s|` if there is none. */
  function WordEnd(s: string, i: nat): (k: nat)
    requires i <= |s|
    ensures i <= k <= |s|
    ensures forall j :: i <= j < k ==> s[j] != ' '
    ensures k == |s| || s[k] == ' '
    decreases |s| - i
  {
    if i == |s| || s[i] == ' ' then i else WordEnd(s, i + 1)
  }

  /** A token as the shell's tokenizer produces it: non-empty, no space. */
  predicate IsWord(w: string)
  {
    w != "" && ' ' !in w
  }

  /** The maximal runs of non-space characters of `s`, left to right. */
  function Words(s: string): (r: seq<string>)
    ensures forall i :: 0 <= i < |r| ==> IsWord(r[i])
    decreases |s|
  {
    if |s| == 0 then []
    else if s[0] == ' ' then Words(s[1..])
    else
      var k := WordEnd(s, 0);
      [s[..k]] + Words(s[k..])
  }

  /** Splitting on single spaces and dropping the empty fields yields exactly
      the maximal non-space runs. */
  lemma {:induction false} FilteredSplitIsWords(s: string)
    ensures DeleteEmpty(Split(s, ' ')) == Words(s)
    decreases |s|
  {
    if |s| == 0 {
    } else if s[0] == ' ' {
      FilteredSplitIsWords(s[1..]);
      assert Split(s, ' ') == [""] + Split(s[1..], ' ');
      assert ([""] + Split(s[1..], ' '))[1..] == Split(s[1..], ' ');
    } else {
      var k := WordEnd(s, 0);
      var w, rest := s[..k], s[k..];
      assert s == w + rest;
      assert ' ' !in w;
      SplitPrefix(w, rest, ' ');
      if |rest| == 0 {
        assert Split(rest, ' ') == [""];
        assert w + rest == w;
        assert Split(s, ' ') == [w];
      } else {
        assert rest == [' '] + rest[1..];
        assert Split(rest, ' ') == [""] + Split(rest[1..], ' ');
        assert Split(rest, ' ')[0] == "" && Split(rest, ' ')[1..] == Split(rest[1..], ' ');
        assert w + "" == w;
        assert Split(s, ' ') == [w] + Split(rest[1..], ' ');
        FilteredSplitIsWords(rest[1..]);
        DeleteEmptyAppend([w], Split(rest[1..], ' '));
        assert Words(rest) == Words(rest[1..]);
      }
    }
  }

  /** Every word followed by one space: `Spaced(["a", "b"]) == "a b "`. */
  function Spaced(words: seq<string>): string
  {
    if |words| == 0 then "" else words[0] + " " + Spaced(words[1..])
  }

  /** The space-terminated rendering of a word list tokenizes back to it. */
  lemma {:induction false} WordsOfSpaced(words: seq<string>)
    requires forall i :: 0 <= i < |words| ==> IsWord(words[i])
    ensures Words(Spaced(words)) == words
    decreases |words|
  {
    if |words| > 0 {
      var w := words[0];
      var rest := Spaced(words[1..]);
      var s := Spaced(words);
      assert s == w + " " + rest;
      WordEndAfterRun(s, w);
      assert s[..|w|] == w;
      assert s[|w|..] == " " + rest;
      assert (" " + rest)[1..] == rest;
      WordsOfSpaced(words[1..]);
      assert words == [w] + words[1..];
    }
  }

  /** A non-empty space-free prefix followed by a space ends at that space. */
  lemma WordEndAfterRun(s: string, w: string)
    requires w != "" && ' ' !in w
    requires |s| > |w| && s[..|w|] == w && s[|w|] == ' '
    ensures WordEnd(s, 0) == |w|
  {
  }

  /** The character of a decimal digit. */
  function DigitChar(d: nat): (c: char)
    requires d < 10
    ensures '0' <= c <= '9'
    ensures c as int - '0' as int == d
  {
    (d + '0' as int) as char
  }

  predicate IsDigits(s: string)
  {
    forall i :: 0 <= i < |s| ==> '0' <= s[i] <= '9'
  }

  /** Base-ten rendering of a natural number, as Rust's `{}` prints it. */
  function Decimal(n: nat): (r: string)
    ensures |r| >= 1 && IsDigits(r)
    ensures r[0] == '0' ==> n == 0
  {
    if n < 10 then [DigitChar(n)] else Decimal(n / 10) + [DigitChar(n % 10)]
  }

  /** The number a string of decimal digits denotes. */
  function DecimalValue(s: string): nat
    requires IsDigits(s)
  {
    if |s| == 0 then 0
    else DecimalValue(s[..|s| - 1]) * 10 + (s[|s| - 1] as int - '0' as int)
  }

  /** Reading back a rendered number gives the number. */
  lemma {:induction false} DecimalRoundTrip(n: nat)
    ensures DecimalValue(Decimal(n)) == n
  {
    if n >= 10 {
      DecimalRoundTrip(n / 10);
      var r := Decimal(n);
      assert r[..|r| - 1] == Decimal(n / 10);
    }
  }

  /** Right-aligns `s` in a field of at least `width` characters with spaces,
      as Rust's `{:width}` does for numbers. */
  function PadLeft(s: string, width: nat): (r: string)
    ensures |r| == if |s| >= width then |s| else width
    ensures r[|r| - |s|..] == s
    ensures forall i :: 0 <= i < |r| - |s| ==> r[i] == ' '
  {
    if |s| >= width then s else seq(width - |s|, _ => ' ') + s
  }

  /** Leading spaces removed. */
  function TrimLeft(s: string): (r: string)
    ensures |r| <= |s| && r == s[|s| - |r|..]
    ensures |r| > 0 ==> r[0] != ' '
  {
    if |s| > 0 && s[0] == ' ' then TrimLeft(s[1..]) else s
  }

  /** Trimming a run of spaces in front of a text that does not start with
      one gives back the text. */
  lemma {:induction false} TrimLeftPadded(pad: string, s: string)
    requires forall i :: 0 <= i < |pad| ==> pad[i] == ' '
    requires |s| > 0 && s[0] != ' '
    ensures TrimLeft(pad + s) == s
    decreases |pad|
  {
    if |pad| > 0 {
      assert (pad + s)[0] == ' ';
      assert (pad + s)[1..] == pad[1..] + s;
      TrimLeftPadded(pad[1..], s);
    } else {
      assert pad + s == s;
    }
  }

  function Pow10(k: nat): nat
  {
    if k == 0 then 1 else 10 * Pow10(k - 1)
  }

  /** A number below 10^k has at most k digits (and always at least one). */
  lemma {:induction false} DecimalLength(n: nat, k: nat)
    requires 1 <= k && n < Pow10(k)
    ensures |Decimal(n)| <= k
  {
    if n >= 10 {
      DecimalLength(n / 10, k - 1);
    }
  }

  /** Numbers below 100000 have at most five digits. */
  lemma DecimalBelow(n: nat)
    requires n < 100000
    ensures |Decimal(n)| <= 5
  {
    assert Pow10(5) == 100000;
    DecimalLength(n, 5);
  }
}

=== FILE: wrappers.dfy ===
/** Failure-carrying datatypes shared by the shell model. */
module Wrappers {

  /** A value that may be absent (an unset redirection, for one). */
  datatype Option<+T> = None | Some(value: T)

  /** Either a computed value or the error that stopped the computation. */
  datatype Result<+T, +E> = Ok(value: T) | Err(error: E)
}
